=== FILE: README.md ===
# baseball_data ETL core in Dafny

This project models the two pieces of pure tabular logic in the baseball roster
ETL pipeline:

* **Row cleaning** (`clean_data`): missing cells are forward-filled column by column.
  Then every row still missing `PlayerID`, `FirstName`, `LastName` or `BirthDate` is
  dropped. Finally every `PlayerID` is rendered as a string.
* **Keyed incremental load** (`load_data_to_players_db`): if the target table is
  absent, it becomes the incoming rows. If it exists, only the incoming rows whose
  `PlayerID` it does not already hold are appended, after the stored rows.

A table is a `seq<Row>`, and a row is a `map<Column, Option<Value>>`. A `None` cell is
pandas' missing value. A data frame (`Frames.Frame`) pairs the rows with a fixed
column set. A possibly absent target table is an `Option<seq<Row>>`, and the database
is a map from table name to rows.

Modules:

* `Wrappers`: `Option` and `Result`.
* `Seqs`: order-preserving filtering and its lemmas.
* `Decimal`: Python's `str` of an `int`, plus a parser used only as its inverse.
* `Frames`: columns, cells, rows and frames.
* `Transform`: `clean_data`.
* `Load`: `load_data_to_players_db`.

The load is insert-only. A stored row is never changed or removed, even when an
incoming row with the same `PlayerID` carries different fields. Nothing is written to
`players_audit`. `Load.InsertOnlyScenario` works one case through: with players 1 and
2 stored (both active) and the batch [2 injured, 3 active], only player 3 is appended.
Player 2 keeps its stored status and player 1 stays.

## Model

| member | source | states |
|---|---|---|
| Transform.ForwardFill | src/transform/transform_data.py:6 | the fill keeps the number of rows and each row's column set, and never changes a present cell; FillIsLatest states which value a missing cell receives |
| Transform.FillIsLatest | src/transform/transform_data.py:6 | after the forward fill, a cell holds the nearest present cell at or above it in its column, or is missing if there is none (every row carries the column) |
| Transform.FillMissing | src/transform/transform_data.py:6 | after the fill, a cell is missing exactly when it and every earlier cell of its column were missing |
| Transform.FillNearest | src/transform/transform_data.py:6 | a filled cell equals some earlier cell of its column, and every cell between that one and it was missing |
| Transform.FillIdempotent | src/transform/transform_data.py:6 | forward-filling an already filled frame changes nothing |
| Transform.DropIncomplete | src/transform/transform_data.py:9-10 | every kept row has all four critical cells, every complete row is kept, and the output is no longer than the input |
| Transform.DropKeepsOrder | src/transform/transform_data.py:10 | the critical-column filter keeps row order: it distributes over stacking two tables |
| Transform.DroppedRowsArePrefix | src/transform/transform_data.py:6-10 | on a forward-filled frame, the filled rows are incomplete before some index k and complete from k on, and the filter keeps exactly the rows from k on |
| Transform.RenderId | src/transform/transform_data.py:14 | a PlayerID becomes text: text stays as it is, an integer becomes the canonical numeral (optional '-', no leading zero, never "-0") that reads back as that integer, and a missing id becomes "nan" |
| Transform.RenderIds | src/transform/transform_data.py:14 | every row that has a PlayerID column gets a text PlayerID: a text id is kept as it is, and an integer id becomes the canonical numeral that reads back as that integer (as RenderId states); every other cell and the column set stay the same |
| Transform.Clean | src/transform/transform_data.py:4-16 | fails exactly when a critical column is absent from the frame, naming the absent ones; otherwise it keeps the column set and never adds rows, and every output row is complete with a text PlayerID. This completeness is checked after the id is rendered; CleanIsFilledSuffix states which rows survive |
| Transform.CleanIsFilledSuffix | src/transform/transform_data.py:4-16 | on a frame with all critical columns, completeness is judged before ids are rendered: the filled rows are incomplete before some index k and complete from k on, and the cleaned rows are exactly the filled rows from k on, with ids rendered. So no kept row had a missing PlayerID, FirstName, LastName or BirthDate |
| Decimal.ParseShow | src/transform/transform_data.py:14 | the decimal rendering of an integer PlayerID reads back as the same integer |
| Decimal.ShowParse | src/transform/transform_data.py:14 | every canonical numeral is the rendering of the integer it reads as; with ParseShow, `Show` gives each integer exactly its canonical numeral, as Python's `str` does |
| Decimal.ShowInjective | src/transform/transform_data.py:14 | two different integer PlayerIDs never render to the same string |
| Load.LoadPlayers | src/load/load_data_to_players.py:81-111 | absent table: the result is the incoming rows and the count is their number. Existing table: the stored rows stay in place as a prefix, the count is the number of appended rows, "no new records" is reported exactly when that count is 0, every appended row is an incoming row with an unseen PlayerID, and every such incoming row is appended |
| Load.NewRecords | src/load/load_data_to_players.py:100 | the selected rows are incoming rows whose PlayerID is not stored, every incoming row with an unstored PlayerID is selected, and there are no more of them than incoming rows |
| Load.AppendedRows | src/load/load_data_to_players.py:97-104 | on an existing table, the result is the stored rows followed by the incoming rows whose PlayerID is not stored |
| Load.NewRecordsConcat | src/load/load_data_to_players.py:100 | selecting the new records keeps incoming order: selecting from two stacked batches is stacking the two selections |
| Load.NewRecordsSingle | src/load/load_data_to_players.py:100 | a single incoming row is selected exactly when its PlayerID is not stored |
| Load.KnownKeysDiscarded | src/load/load_data_to_players.py:100 | an incoming row whose PlayerID is already stored is not used as an update: every row with that id afterwards is an untouched stored row |
| Load.KeysAfterLoad | src/load/load_data_to_players.py:95-111 | afterwards, the table's PlayerID set is the union of the stored and the incoming PlayerIDs (only the incoming ones if the table was absent) |
| Load.LoadIdempotent | src/load/load_data_to_players.py:100-107 | loading the same rows again leaves the table unchanged, inserts 0 rows and reports "no new records" |
| Load.DuplicatesAllAppended | src/load/load_data_to_players.py:100-105 | all incoming rows with a PlayerID that is not stored are appended, duplicates included, because the load filters only against stored rows |
| Load.InsertOnlyScenario | src/load/load_data_to_players.py:95-107 | with players 1 and 2 stored and the batch [2 injured, 3 active], only player 3 is appended; player 2 keeps its stored status and player 1 stays |
| Load.LoadInto | src/load/load_data_to_players.py:81-111 | the load creates or extends only the target table: every other table, the audit table included, is unchanged; the stored rows stay a prefix; the count is the number of rows added |

## Left out

- The BirthDate conversion (`pd.to_datetime(..., errors='coerce')`, src/transform/transform_data.py:13) is not modelled. Its results depend on pandas' date parser. Because it can turn a bad date into NaT, the guarantee "no missing BirthDate" holds for the rows the filter keeps, before that conversion.
- Transform.RenderId: renders integers as Python's `str(int)`. A PlayerID column that pandas read as floats (because it held a missing value) would render as `"123.0"`. Column dtypes are not modelled.
- Load.LoadPlayers: a `KeyError` when the incoming data or the stored table has no `PlayerID` column is not modelled. A row without that column reads as having a missing PlayerID.
- Load.LoadPlayers: key matching is value equality on cells. A missing PlayerID matches a missing one, as pandas `isin` does with NaN. Mismatches between integer and text id dtypes are not modelled.
- Schema failures of `to_sql` (appending rows with a different column set) are not modelled.
- Reading and writing CSV, JSON and the database, `.env` configuration, hard-coded paths and `print` logging are I/O and are left out. The three branch messages of the load are the `Load.Outcome` values.
- `create_players_table` and `create_audit_table` are SQL DDL and are never called by the load. They are not modelled, apart from the audit table's name.
- The HTTP fetch with fixed-delay retry and `convert_datetime_format` (src/ingest/) are network and pandas-date code.
- src/load/load_data.py (a `to_sql(..., if_exists='replace')` wrapper), scripts/run_etl.py (orchestration whose calls do not match the called functions' signatures), scripts/visualize.py and src/utils/db_utils.py are glue, plotting and engine creation.
- Update, delete and audit-log reconciliation are not modelled: the code does not do them.

=== FILE: decimal.dfy ===
/** Decimal rendering of integers, as Python's `str` renders an `int`. */
module Decimal {
  import opened Wrappers

  function DigitChar(d: nat): (c: char)
    requires d < 10
    ensures '0' <= c <= '9' && (c as int) - ('0' as int) == d
  {
    (('0' as int) + d) as char
  }

  /** The value of a decimal digit, or None for any other character. */
  function DigitValue(c: char): (r: Option<nat>)
    ensures r.Some? <==> '0' <= c <= '9'
    ensures r.Some? ==> r.value < 10
  {
    if '0' <= c <= '9' then Some((c as int) - ('0' as int)) else None
  }

  /** The shortest decimal numeral of `n`: no sign, no leading zero. */
  function ShowNat(n: nat): (s: string)
    ensures |s| > 0
    ensures forall i :: 0 <= i < |s| ==> '0' <= s[i] <= '9'
    ensures |s| > 1 ==> s[0] != '0'
    ensures n > 0 ==> s[0] != '0'
    decreases n
  {
    if n < 10 then [DigitChar(n)] else ShowNat(n / 10) + [DigitChar(n % 10)]
  }

  predicate AllDigits(s: string) {
    forall i :: 0 <= i < |s| ==> '0' <= s[i] <= '9'
  }

  /** The form Python gives an int: an optional '-', then a non-empty run of digits
      with no leading zero, and never "-0". */
  predicate Canonical(s: string) {
    if |s| > 0 && s[0] == '-' then
      |s| > 1 && AllDigits(s[1..]) && s[1] != '0'
    else
      |s| > 0 && AllDigits(s) && (|s| > 1 ==> s[0] != '0')
  }

  /** `str(n)` for a Python int: a leading '-' for negative numbers. */
  function Show(n: int): (s: string)
    ensures Canonical(s)
    ensures s[0] == '-' <==> n < 0
  {
    if n < 0 then "-" + ShowNat(-n) else ShowNat(n)
  }

  /** Reads a non-empty run of decimal digits. */
  function ParseNat(s: string): Option<nat>
    decreases |s|
  {
    if |s| == 0 then None
    else
      var d := DigitValue(s[|s| - 1]);
      if d.None? then None
      else if |s| == 1 then d
      else
        var hi := ParseNat(s[..|s| - 1]);
        if hi.None? then None else Some(hi.value * 10 + d.value)
  }

  /** Reads an optionally negative decimal numeral. */
  function Parse(s: string): Option<int> {
    if |s| > 0 && s[0] == '-' then
      var m := ParseNat(s[1..]);
      if m.None? then None else Some(-(m.value as int))
    else
      var m := ParseNat(s);
      if m.None? then None else Some(m.value as int)
  }

  lemma {:induction false} ParseShowNat(n: nat)
    ensures ParseNat(ShowNat(n)) == Some(n)
    decreases n
  {
    var s := ShowNat(n);
    if n >= 10 {
      ParseShowNat(n / 10);
      assert s[..|s| - 1] == ShowNat(n / 10);
    }
  }

  /** Rendering loses nothing: the numeral reads back as the same integer. */
  lemma ParseShow(n: int)
    ensures Parse(Show(n)) == Some(n)
  {
    if n < 0 {
      ParseShowNat(-n);
      assert Show(n)[1..] == ShowNat(-n);
    } else {
      ParseShowNat(n);
    }
  }

  lemma {:induction false} ShowParseNat(s: string)
    requires |s| > 0 && AllDigits(s) && (|s| > 1 ==> s[0] != '0')
    ensures ParseNat(s).Some? && ShowNat(ParseNat(s).value) == s
    decreases |s|
  {
    var n := |s|;
    if n > 1 {
      var init := s[..n - 1];
      ShowParseNat(init);
      var hi := ParseNat(init).value;
      var d := DigitValue(s[n - 1]).value;
      assert hi != 0 by {
        assert ShowNat(0) == "0";
      }
      var v := hi * 10 + d;
      assert v / 10 == hi && v % 10 == d;
      assert DigitChar(d) == s[n - 1];
      assert ShowNat(v) == ShowNat(hi) + [DigitChar(d)];
      assert s == init + [s[n - 1]];
    } else {
      assert [DigitChar(DigitValue(s[0]).value)] == s;
    }
  }

  /** A canonical numeral is the rendering of the integer it reads as, so `Show`
      renders each integer as its one canonical numeral. */
  lemma ShowParse(s: string)
    requires Canonical(s)
    ensures Parse(s).Some? && Show(Parse(s).value) == s
  {
    if s[0] == '-' {
      ShowParseNat(s[1..]);
      var m := ParseNat(s[1..]).value;
      assert m != 0 by {
        assert ShowNat(0) == "0";
      }
      assert s == "-" + s[1..];
    } else {
      ShowParseNat(s);
    }
  }

  /** Two different integers never render to the same string. */
  lemma ShowInjective(m: int, n: int)
    requires Show(m) == Show(n)
    ensures m == n
  {
    ParseShow(m);
    ParseShow(n);
  }
}

=== FILE: frames.dfy ===
/** The tabular data model: a player table is a sequence of rows, each row a map
    from column to a possibly missing cell. */
module Frames {
  import opened Wrappers

  /** The columns the pipeline names; every other roster column is opaque. */
  datatype Column = PlayerID | FirstName | LastName | BirthDate | Other(name: string)

  /** The names of the columns with their own constructor; `Other` never carries one,
      so each column has exactly one spelling. */
  const NamedColumns: set<string> := {"PlayerID", "FirstName", "LastName", "BirthDate"}

  /** A non-missing cell: text (names, dates as read, rendered ids) or an integer. */
  datatype Value = Text(s: string) | Int(n: int)

  /** One record; a `None` cell is a missing value (NaN / None / NaT). */
  type Row = map<Column, Option<Value>>

  /** The cell of `r` in column `c`; a column the row does not carry reads as missing. */
  function Cell(r: Row, c: Column): Option<Value> {
    if c in r then r[c] else None
  }

  /** The columns a row must have filled in to survive cleaning. */
  const Critical: set<Column> := {PlayerID, FirstName, LastName, BirthDate}

  /** No critical cell of `r` is missing. */
  predicate Complete(r: Row) {
    forall c :: c in Critical ==> Cell(r, c).Some?
  }

  /** Every row carries exactly the column set `cols`, as in a data frame. */
  predicate Shaped(rows: seq<Row>, cols: set<Column>) {
    forall i :: 0 <= i < |rows| ==> rows[i].Keys == cols
  }

  /** A data frame: a fixed column set and rows over it. */
  datatype Frame = Frame(columns: set<Column>, rows: seq<Row>) {
    predicate Valid() {
      && Shaped(rows, columns)
      && (forall c :: c in columns && c.Other? ==> c.name !in NamedColumns)
    }
  }
}

=== FILE: load.dfy ===
/** The keyed incremental load into the players table: a missing table becomes the
    incoming rows; an existing table gains only the incoming rows whose PlayerID it
    does not hold yet. Insert-only: nothing is updated, deleted or audited. */
module Load {
  import opened Wrappers
  import opened Frames
  import Seqs

  /** The key a row is matched on; a missing PlayerID matches a missing one. */
  type Key = Option<Value>

  function KeyOf(r: Row): Key {
    Cell(r, PlayerID)
  }

  function KeysOf(t: seq<Row>): set<Key> {
    set r | r in t :: KeyOf(r)
  }

  /** The row test of the load: the row's PlayerID is not among `ids`. */
  function Unseen(ids: set<Key>): Row -> bool {
    (r: Row) => KeyOf(r) !in ids
  }

  /** The row test "has PlayerID `k`". */
  function WithKey(k: Key): Row -> bool {
    (r: Row) => KeyOf(r) == k
  }

  /** The incoming rows whose PlayerID the existing table does not hold, in incoming order. */
  function NewRecords(incoming: seq<Row>, existing: seq<Row>): (r: seq<Row>)
    ensures |r| <= |incoming|
    ensures forall i :: 0 <= i < |r| ==> r[i] in incoming && KeyOf(r[i]) !in KeysOf(existing)
    ensures forall i :: 0 <= i < |incoming| && KeyOf(incoming[i]) !in KeysOf(existing) ==> incoming[i] in r
  {
    Seqs.Filter(Unseen(KeysOf(existing)), incoming)
  }

  /** Which of the three reports the load ends with. */
  datatype Outcome = Created | Appended | NothingNew

  /** The table after the load and the number of rows written to it. */
  datatype LoadResult = LoadResult(table: seq<Row>, inserted: nat, outcome: Outcome)

  /** `load_data_to_players_db` on a target table that is absent (`None`) or holds rows. */
  function LoadPlayers(incoming: seq<Row>, target: Option<seq<Row>>): (r: LoadResult)
    ensures target.None? ==> r.table == incoming && r.inserted == |incoming| && r.outcome == Created
    ensures target.Some? ==> |target.value| <= |r.table| && r.table[..|target.value|] == target.value
    ensures target.Some? ==> r.inserted == |r.table| - |target.value| && r.outcome != Created
    ensures target.Some? ==> (r.outcome == NothingNew <==> r.inserted == 0)
    ensures target.Some? ==> forall i :: |target.value| <= i < |r.table| ==>
              r.table[i] in incoming && KeyOf(r.table[i]) !in KeysOf(target.value)
    ensures target.Some? ==> forall i :: 0 <= i < |incoming| && KeyOf(incoming[i]) !in KeysOf(target.value) ==>
              incoming[i] in r.table[|target.value|..]
  {
    match target
    case None => LoadResult(incoming, |incoming|, Created)
    case Some(existing) =>
      var added := NewRecords(incoming, existing);
      if |added| > 0 then LoadResult(existing + added, |added|, Appended)
      else LoadResult(existing, 0, NothingNew)
  }

  /** The rows the load appends to an existing table are exactly its new records. */
  lemma AppendedRows(incoming: seq<Row>, existing: seq<Row>)
    ensures LoadPlayers(incoming, Some(existing)).table == existing + NewRecords(incoming, existing)
  {
    var r := LoadPlayers(incoming, Some(existing));
    var added := NewRecords(incoming, existing);
    if |added| == 0 {
      assert existing + added == existing;
    }
  }

  /** Selecting new records respects the order of the incoming batch: selecting from
      two stacked batches is stacking the two selections. */
  lemma NewRecordsConcat(a: seq<Row>, b: seq<Row>, existing: seq<Row>)
    ensures NewRecords(a + b, existing) == NewRecords(a, existing) + NewRecords(b, existing)
  {
    Seqs.FilterConcat(Unseen(KeysOf(existing)), a, b);
  }

  /** A single incoming row is a new record exactly when its PlayerID is not stored. */
  lemma NewRecordsSingle(x: Row, existing: seq<Row>)
    ensures NewRecords([x], existing) == if KeyOf(x) in KeysOf(existing) then [] else [x]
  {
    assert [x][1..] == [];
  }

  /** An incoming row whose PlayerID is already stored is discarded, not used as an
      update: every row carrying that PlayerID afterwards is an untouched existing row. */
  lemma KnownKeysDiscarded(incoming: seq<Row>, existing: seq<Row>, x: Row)
    requires x in incoming && KeyOf(x) in KeysOf(existing)
    ensures var t := LoadPlayers(incoming, Some(existing)).table;
            forall j :: 0 <= j < |t| && KeyOf(t[j]) == KeyOf(x) ==> j < |existing| && t[j] == existing[j]
  {
  }

  /** Afterwards the table's PlayerIDs are the old ones together with the incoming ones. */
  lemma KeysAfterLoad(incoming: seq<Row>, target: Option<seq<Row>>)
    ensures KeysOf(LoadPlayers(incoming, target).table)
            == (if target.Some? then KeysOf(target.value) else {}) + KeysOf(incoming)
  {
    if target.Some? {
      var existing := target.value;
      var t := LoadPlayers(incoming, target).table;
      var added := NewRecords(incoming, existing);
      AppendedRows(incoming, existing);
      forall k | k in KeysOf(t) ensures k in KeysOf(existing) + KeysOf(incoming) {
        var r :| r in t && KeyOf(r) == k;
        if r !in existing {
          assert r in added;
        }
      }
      forall k | k in KeysOf(existing) + KeysOf(incoming) ensures k in KeysOf(t) {
        if k !in KeysOf(existing) {
          var r :| r in incoming && KeyOf(r) == k;
          var i :| 0 <= i < |incoming| && incoming[i] == r;
          assert r in added;
        }
      }
    }
  }

  /** Loading the same rows a second time inserts nothing and reports "no new records". */
  lemma LoadIdempotent(incoming: seq<Row>, target: Option<seq<Row>>)
    ensures var first := LoadPlayers(incoming, target);
            var second := LoadPlayers(incoming, Some(first.table));
            second.table == first.table && second.inserted == 0 && second.outcome == NothingNew
  {
    var first := LoadPlayers(incoming, target);
    KeysAfterLoad(incoming, target);
    Seqs.FilterNone(Unseen(KeysOf(first.table)), incoming);
  }

  /** Incoming duplicates of a new PlayerID are all appended: the load filters against
      the stored rows only, never within the batch. */
  lemma DuplicatesAllAppended(incoming: seq<Row>, existing: seq<Row>, k: Key)
    requires k !in KeysOf(existing)
    ensures var t := LoadPlayers(incoming, Some(existing)).table;
            Seqs.Filter(WithKey(k), t[|existing|..]) == Seqs.Filter(WithKey(k), incoming)
  {
    AppendedRows(incoming, existing);
    assert LoadPlayers(incoming, Some(existing)).table[|existing|..] == NewRecords(incoming, existing);
    Seqs.FilterStronger(WithKey(k), Unseen(KeysOf(existing)), incoming);
  }

  function StatusRow(id: int, status: string): Row {
    map[PlayerID := Some(Int(id)), Other("Status") := Some(Text(status))]
  }

  /** On the stored players 1 and 2 (both active) and the batch [2 injured, 3 active],
      the load appends player 3 only: player 2 keeps its stored status and player 1
      stays. */
  lemma InsertOnlyScenario()
    ensures var existing := [StatusRow(1, "Active"), StatusRow(2, "Active")];
            var r := LoadPlayers([StatusRow(2, "Injured"), StatusRow(3, "Active")], Some(existing));
            r.table == existing + [StatusRow(3, "Active")] && r.inserted == 1 && r.outcome == Appended
  {
    var existing := [StatusRow(1, "Active"), StatusRow(2, "Active")];
    var incoming := [StatusRow(2, "Injured"), StatusRow(3, "Active")];
    assert KeysOf(existing) == {Some(Int(1)), Some(Int(2))} by {
      assert KeyOf(existing[0]) == Some(Int(1));
      assert KeyOf(existing[1]) == Some(Int(2));
    }
    assert KeyOf(incoming[0]) == Some(Int(2));
    assert KeyOf(incoming[1]) == Some(Int(3));
    assert incoming[1..][1..] == [];
    assert NewRecords(incoming, existing) == [StatusRow(3, "Active")];
  }

  // ---------------------------------------------------------------- the database

  /** The database the load writes to: tables by name. */
  type Database = map<string, seq<Row>>

  /** The audit table's name; the load never writes to it. */
  const AuditTable: string := "players_audit"

  /** The load as a step on the whole database: the named table is created or
      appended to, and the count of written rows is returned. */
  function LoadInto(db: Database, name: string, incoming: seq<Row>): (r: (Database, nat))
    ensures r.0.Keys == db.Keys + {name}
    // every other table, the audit table among them, is left as it was
    ensures forall n :: n in db && n != name ==> r.0[n] == db[n]
    ensures name in db ==> |db[name]| <= |r.0[name]| && r.0[name][..|db[name]|] == db[name]
    ensures r.1 == |r.0[name]| - (if name in db then |db[name]| else 0)
  {
    var res := LoadPlayers(incoming, if name in db then Some(db[name]) else None);
    (db[name := res.table], res.inserted)
  }
}

=== FILE: seqs.dfy ===
/** Order-preserving filtering of sequences, the shape of every row selection in the pipeline. */
module Seqs {

  /** The elements of `s` that satisfy `p`, in their original order. */
  function Filter<T>(p: T -> bool, s: seq<T>): (r: seq<T>)
    ensures |r| <= |s|
    ensures forall i :: 0 <= i < |r| ==> p(r[i])
    ensures forall i :: 0 <= i < |r| ==> r[i] in s
    ensures forall i :: 0 <= i < |s| && p(s[i]) ==> s[i] in r
    decreases |s|
  {
    if |s| == 0 then []
    else if p(s[0]) then [s[0]] + Filter(p, s[1..])
    else Filter(p, s[1..])
  }

  /** Filtering distributes over concatenation: no element overtakes another. */
  lemma {:induction false} FilterConcat<T>(p: T -> bool, a: seq<T>, b: seq<T>)
    ensures Filter(p, a + b) == Filter(p, a) + Filter(p, b)
    decreases |a|
  {
    if |a| == 0 {
      assert a + b == b;
    } else {
      assert (a + b)[0] == a[0];
      assert (a + b)[1..] == a[1..] + b;
      FilterConcat(p, a[1..], b);
    }
  }

  /** When every element passes, nothing is removed. */
  lemma {:induction false} FilterAll<T>(p: T -> bool, s: seq<T>)
    requires forall i :: 0 <= i < |s| ==> p(s[i])
    ensures Filter(p, s) == s
    decreases |s|
  {
    if |s| > 0 {
      FilterAll(p, s[1..]);
    }
  }

  /** When no element passes, everything is removed. */
  lemma {:induction false} FilterNone<T>(p: T -> bool, s: seq<T>)
    requires forall i :: 0 <= i < |s| ==> !p(s[i])
    ensures Filter(p, s) == []
    decreases |s|
  {
    if |s| > 0 {
      FilterNone(p, s[1..]);
    }
  }

  /** Filtering by `q` first is harmless when `p` is the stronger condition. */
  lemma {:induction false} FilterStronger<T>(p: T -> bool, q: T -> bool, s: seq<T>)
    requires forall i :: 0 <= i < |s| && p(s[i]) ==> q(s[i])
    ensures Filter(p, Filter(q, s)) == Filter(p, s)
    decreases |s|
  {
    if |s| > 0 {
      FilterStronger(p, q, s[1..]);
    }
  }

  /** `p` fails on the first `k` elements of `s` and holds on all the others. */
  predicate SplitsAt<T>(p: T -> bool, s: seq<T>, k: int) {
    && 0 <= k <= |s|
    && (forall i :: 0 <= i < k ==> !p(s[i]))
    && (forall i :: k <= i < |s| ==> p(s[i]))
  }

  /** Once `p` holds at some element of `s`, it holds at every later one. */
  predicate UpwardClosed<T>(p: T -> bool, s: seq<T>) {
    forall i, j :: 0 <= i <= j < |s| && p(s[i]) ==> p(s[j])
  }

  /** If `p`, once true, stays true for the rest of `s`, the elements it removes
      form a prefix of `s` and what remains is the suffix after it. */
  lemma {:induction false} FilterUpwardClosed<T>(p: T -> bool, s: seq<T>)
    requires UpwardClosed(p, s)
    ensures exists k :: SplitsAt(p, s, k) && Filter(p, s) == s[k..]
    decreases |s|
  {
    if |s| == 0 {
      assert SplitsAt(p, s, 0) && Filter(p, s) == s[0..];
    } else if p(s[0]) {
      assert forall i :: 0 <= i < |s| ==> p(s[i]);
      FilterAll(p, s);
      assert SplitsAt(p, s, 0) && Filter(p, s) == s[0..];
    } else {
      var t := s[1..];
      assert UpwardClosed(p, t) by {
        forall i, j | 0 <= i <= j < |t| && p(t[i]) ensures p(t[j]) {
          assert t[i] == s[i + 1] && t[j] == s[j + 1];
        }
      }
      FilterUpwardClosed(p, t);
      var k :| SplitsAt(p, t, k) && Filter(p, t) == t[k..];
      assert t[k..] == s[k + 1..];
      assert SplitsAt(p, s, k + 1) by {
        forall i | 0 <= i < k + 1 ensures !p(s[i]) {
          if i > 0 {
            assert s[i] == t[i - 1];
          }
        }
        forall i | k + 1 <= i < |s| ensures p(s[i]) {
          assert s[i] == t[i - 1];
        }
      }
      assert Filter(p, s) == s[k + 1..];
    }
  }
}

=== FILE: transform.dfy ===
/** Row cleaning: column-wise forward fill, then dropping rows that still miss a
    critical cell, then rendering every PlayerID as a string. */
module Transform {
  import opened Wrappers
  import opened Frames
  import Seqs
  import Decimal

  // ---------------------------------------------------------------- forward fill

  /** Fills the missing cells of `raw` from the already filled row above it. */
  function FillRow(raw: Row, above: Row): (r: Row)
    ensures r.Keys == raw.Keys
  {
    map c | c in raw :: if raw[c].Some? then raw[c] else Cell(above, c)
  }

  /** Forward fill down every column: each row is filled from the filled row above. */
  function ForwardFill(rows: seq<Row>): (r: seq<Row>)
    ensures |r| == |rows|
    ensures forall i :: 0 <= i < |rows| ==> r[i].Keys == rows[i].Keys
    ensures forall i, c :: 0 <= i < |rows| && c in rows[i] && rows[i][c].Some? ==> r[i][c] == rows[i][c]
    decreases |rows|
  {
    if |rows| == 0 then []
    else
      var above := ForwardFill(rows[..|rows| - 1]);
      above + [FillRow(rows[|rows| - 1], if |above| == 0 then map[] else above[|above| - 1])]
  }

  /** Reference meaning of a filled cell: the nearest non-missing cell at or above
      row `i` in column `c`, or missing if there is none. */
  function Latest(rows: seq<Row>, i: nat, c: Column): Option<Value>
    requires i < |rows|
    decreases i
  {
    if Cell(rows[i], c).Some? || i == 0 then Cell(rows[i], c) else Latest(rows, i - 1, c)
  }

  lemma {:induction false} LatestPrefix(rows: seq<Row>, m: nat, i: nat, c: Column)
    requires i < m <= |rows|
    ensures Latest(rows[..m], i, c) == Latest(rows, i, c)
    decreases i
  {
    assert rows[..m][i] == rows[i];
    if i > 0 {
      LatestPrefix(rows, m, i - 1, c);
    }
  }

  /** A cell is missing after the fill exactly when it and every cell above it were. */
  lemma {:induction false} LatestMissing(rows: seq<Row>, i: nat, c: Column)
    requires i < |rows|
    ensures Latest(rows, i, c).None? <==> forall j :: 0 <= j <= i ==> Cell(rows[j], c).None?
    decreases i
  {
    if i > 0 {
      LatestMissing(rows, i - 1, c);
    }
  }

  lemma {:induction false} LatestSource(rows: seq<Row>, i: nat, c: Column)
    requires i < |rows|
    requires Latest(rows, i, c).Some?
    ensures exists j :: 0 <= j <= i && Cell(rows[j], c) == Latest(rows, i, c)
                        && forall k :: j < k <= i ==> Cell(rows[k], c).None?
    decreases i
  {
    if Cell(rows[i], c).None? {
      LatestSource(rows, i - 1, c);
    }
  }

  /** The fill computes the reference meaning, provided every row carries column `c`. */
  lemma {:induction false} FillIsLatest(rows: seq<Row>, i: nat, c: Column)
    requires i < |rows|
    requires forall j :: 0 <= j < |rows| ==> c in rows[j]
    ensures Cell(ForwardFill(rows)[i], c) == Latest(rows, i, c)
    decreases |rows|
  {
    var n := |rows|;
    var init := rows[..n - 1];
    var above := ForwardFill(init);
    var last := FillRow(rows[n - 1], if |above| == 0 then map[] else above[|above| - 1]);
    assert ForwardFill(rows) == above + [last];
    if i < n - 1 {
      assert ForwardFill(rows)[i] == above[i];
      FillIsLatest(init, i, c);
      LatestPrefix(rows, n - 1, i, c);
    } else {
      assert ForwardFill(rows)[i] == last;
      assert c in rows[n - 1];
      if n > 1 && rows[n - 1][c].None? {
        FillIsLatest(init, n - 2, c);
        LatestPrefix(rows, n - 1, n - 2, c);
      }
    }
  }

  /** After the fill a cell is missing exactly when it and every earlier cell of its
      column were missing. */
  lemma FillMissing(rows: seq<Row>, i: nat, c: Column)
    requires i < |rows|
    requires forall j :: 0 <= j < |rows| ==> c in rows[j]
    ensures Cell(ForwardFill(rows)[i], c).None? <==> forall j :: 0 <= j <= i ==> Cell(rows[j], c).None?
  {
    FillIsLatest(rows, i, c);
    LatestMissing(rows, i, c);
  }

  /** A filled cell holds the value of the nearest earlier present cell of its column. */
  lemma FillNearest(rows: seq<Row>, i: nat, c: Column)
    requires i < |rows|
    requires forall j :: 0 <= j < |rows| ==> c in rows[j]
    requires Cell(ForwardFill(rows)[i], c).Some?
    ensures exists j :: 0 <= j <= i && Cell(rows[j], c) == Cell(ForwardFill(rows)[i], c)
                        && forall k :: j < k <= i ==> Cell(rows[k], c).None?
  {
    FillIsLatest(rows, i, c);
    LatestSource(rows, i, c);
  }

  /** Filling the filled table again leaves cell (i, c) as it is. */
  lemma FillCellStable(rows: seq<Row>, cols: set<Column>, i: nat, c: Column)
    requires Shaped(rows, cols) && c in cols && i < |rows|
    ensures ForwardFill(ForwardFill(rows))[i][c] == ForwardFill(rows)[i][c]
  {
    var f: seq<Row> := ForwardFill(rows);
    if f[i][c].None? {
      FillIsLatest(f, i, c);
      FillMissing(rows, i, c);
      forall j | 0 <= j <= i ensures Cell(f[j], c).None? {
        FillMissing(rows, j, c);
      }
      LatestMissing(f, i, c);
    }
  }

  /** Filling an already filled table changes nothing. */
  lemma FillIdempotent(rows: seq<Row>, cols: set<Column>)
    requires Shaped(rows, cols)
    ensures ForwardFill(ForwardFill(rows)) == ForwardFill(rows)
  {
    var f: seq<Row> := ForwardFill(rows);
    var g: seq<Row> := ForwardFill(f);
    assert |g| == |f|;
    forall i | 0 <= i < |f| ensures g[i] == f[i] {
      assert f[i].Keys == cols;
      assert g[i].Keys == cols;
      forall c | c in cols ensures g[i][c] == f[i][c] {
        FillCellStable(rows, cols, i, c);
      }
    }
  }

  // ---------------------------------------------------------------- critical filter

  /** `dropna(subset=Critical)`: keeps the complete rows, in order. */
  function DropIncomplete(rows: seq<Row>): (r: seq<Row>)
    ensures |r| <= |rows|
    ensures forall i :: 0 <= i < |r| ==> Complete(r[i]) && r[i] in rows
    ensures forall i :: 0 <= i < |rows| && Complete(rows[i]) ==> rows[i] in r
  {
    Seqs.Filter(Complete, rows)
  }

  /** The filter keeps rows in order: filtering two stacked tables is stacking the
      filtered tables. */
  lemma DropKeepsOrder(a: seq<Row>, b: seq<Row>)
    ensures DropIncomplete(a + b) == DropIncomplete(a) + DropIncomplete(b)
  {
    Seqs.FilterConcat(Complete, a, b);
  }

  /** After the fill, completeness never goes away further down the table. */
  lemma FilledCompleteStays(rows: seq<Row>, cols: set<Column>, i: nat, j: nat)
    requires Shaped(rows, cols) && Critical <= cols
    requires i <= j < |rows|
    requires Complete(ForwardFill(rows)[i])
    ensures Complete(ForwardFill(rows)[j])
  {
    var f := ForwardFill(rows);
    forall c | c in Critical ensures Cell(f[j], c).Some? {
      FillMissing(rows, i, c);
      FillMissing(rows, j, c);
    }
  }

  lemma FilledUpwardClosed(rows: seq<Row>, cols: set<Column>)
    requires Shaped(rows, cols) && Critical <= cols
    ensures Seqs.UpwardClosed(Complete, ForwardFill(rows))
  {
    var f := ForwardFill(rows);
    forall i, j | 0 <= i <= j < |f| && Complete(f[i]) ensures Complete(f[j]) {
      FilledCompleteStays(rows, cols, i, j);
    }
  }

  /** The rows the filter removes from the filled table form a prefix of it: the
      filled rows are incomplete before some index k and complete from k on, and the
      filter keeps exactly the rows from k on. */
  lemma DroppedRowsArePrefix(rows: seq<Row>, cols: set<Column>)
    requires Shaped(rows, cols) && Critical <= cols
    ensures exists k :: Seqs.SplitsAt(Complete, ForwardFill(rows), k)
                        && DropIncomplete(ForwardFill(rows)) == ForwardFill(rows)[k..]
  {
    FilledUpwardClosed(rows, cols);
    Seqs.FilterUpwardClosed(Complete, ForwardFill(rows));
  }

  // ---------------------------------------------------------------- PlayerID as text

  /** `astype(str)` of one PlayerID cell; a missing id renders as "nan". */
  function RenderId(v: Option<Value>): (r: Value)
    ensures r.Text?
    ensures v.None? ==> r == Text("nan")
    ensures v.Some? && v.value.Text? ==> r == v.value
    ensures v.Some? && v.value.Int? ==> Decimal.Canonical(r.s) && Decimal.Parse(r.s) == Some(v.value.n)
  {
    match v
    case None => Text("nan")
    case Some(Text(s)) => Text(s)
    case Some(Int(n)) => Decimal.ParseShow(n); Text(Decimal.Show(n))
  }

  /** Rewrites the PlayerID column of every row as text; all other cells are untouched. */
  function RenderIds(rows: seq<Row>): (r: seq<Row>)
    ensures |r| == |rows|
    ensures forall i :: 0 <= i < |rows| ==> r[i].Keys == rows[i].Keys
    ensures forall i :: 0 <= i < |rows| && PlayerID in rows[i] ==>
              r[i][PlayerID].Some? && r[i][PlayerID].value.Text?
    ensures forall i :: (0 <= i < |rows| && PlayerID in rows[i] && rows[i][PlayerID].Some?
                         && rows[i][PlayerID].value.Text?) ==>
              r[i][PlayerID] == rows[i][PlayerID]
    ensures forall i :: (0 <= i < |rows| && PlayerID in rows[i] && rows[i][PlayerID].Some?
                         && rows[i][PlayerID].value.Int?) ==>
              Decimal.Canonical(r[i][PlayerID].value.s)
              && Decimal.Parse(r[i][PlayerID].value.s) == Some(rows[i][PlayerID].value.n)
    ensures forall i, c :: 0 <= i < |rows| && c in rows[i] && c != PlayerID ==> r[i][c] == rows[i][c]
  {
    seq(|rows|, i requires 0 <= i < |rows| =>
      if PlayerID in rows[i] then rows[i][PlayerID := Some(RenderId(rows[i][PlayerID]))] else rows[i])
  }

  // ---------------------------------------------------------------- clean_data

  /** `dropna` raises when a critical column is not in the frame. */
  datatype CleanError = MissingColumns(missing: set<Column>)

  /** Dropping rows keeps the column set of the rows that remain. */
  lemma DropKeepsShape(rows: seq<Row>, cols: set<Column>)
    requires Shaped(rows, cols)
    ensures Shaped(DropIncomplete(rows), cols)
  {
    var kept := DropIncomplete(rows);
    forall i | 0 <= i < |kept| ensures kept[i].Keys == cols {
      var j :| 0 <= j < |rows| && rows[j] == kept[i];
    }
  }

  /** Rendering ids keeps complete rows complete and leaves every PlayerID as text. */
  lemma RenderKeepsComplete(rows: seq<Row>, cols: set<Column>)
    requires Shaped(rows, cols) && Critical <= cols
    requires forall i :: 0 <= i < |rows| ==> Complete(rows[i])
    ensures var out := RenderIds(rows);
            && Shaped(out, cols)
            && forall i :: 0 <= i < |out| ==>
                 Complete(out[i]) && out[i][PlayerID].Some? && out[i][PlayerID].value.Text?
  {
    var out := RenderIds(rows);
    forall i | 0 <= i < |out| ensures Complete(out[i]) {
      forall c | c in Critical ensures Cell(out[i], c).Some? {
        assert Cell(rows[i], c).Some?;
      }
    }
  }

  /** The whole cleaning step, without the BirthDate conversion. */
  function Clean(f: Frame): (r: Result<Frame, CleanError>)
    ensures r.Failure? <==> !(Critical <= f.columns)
    ensures r.Failure? ==> r.error.missing == Critical - f.columns
    ensures r.Success? ==> r.value.columns == f.columns && |r.value.rows| <= |f.rows|
    ensures r.Success? && f.Valid() ==> r.value.Valid()
    ensures r.Success? && f.Valid() ==>
              forall i :: 0 <= i < |r.value.rows| ==>
                Complete(r.value.rows[i]) && r.value.rows[i][PlayerID].Some?
                && r.value.rows[i][PlayerID].value.Text?
  {
    if !(Critical <= f.columns) then Failure(MissingColumns(Critical - f.columns))
    else
      var out := RenderIds(DropIncomplete(ForwardFill(f.rows)));
      if f.Valid() then
        DropKeepsShape(ForwardFill(f.rows), f.columns);
        RenderKeepsComplete(DropIncomplete(ForwardFill(f.rows)), f.columns);
        Success(Frame(f.columns, out))
      else Success(Frame(f.columns, out))
  }

  /** The cleaned rows are the forward-filled rows from the first complete one on, with
      ids rendered: completeness is judged before the ids are rendered, every filled row
      before that point is incomplete and every filled row from it on is complete. */
  lemma CleanIsFilledSuffix(f: Frame)
    requires f.Valid() && Critical <= f.columns
    ensures Clean(f).Success?
    ensures exists k :: Seqs.SplitsAt(Complete, ForwardFill(f.rows), k)
                        && Clean(f).value.rows == RenderIds(ForwardFill(f.rows)[k..])
  {
    DroppedRowsArePrefix(f.rows, f.columns);
  }
}

=== FILE: wrappers.dfy ===
/** Option and Result datatypes shared by the other modules. */
module Wrappers {

  /** A value that may be absent: a missing table, a missing cell. */
  datatype Option<+T> = None | Some(value: T)

  /** The outcome of an operation that can raise. */
  datatype Result<+R, +E> = Success(value: R) | Failure(error: E)
}
